=== FILE: README.md ===
# go-logger, modelled in Dafny

go-logger is a small Go logging package. Each call to `Warning`, `Error` or
`Info` finds the calling function and source location on the stack. It builds a
record with a timestamp and a colour tag for the level. It renders the record
twice: as a coloured, tab-separated line for the terminal, and as a plain
bracketed line appended to the day's log file. `PrintJSONIndent` logs a value
encoded as indented JSON. While it does so, it raises the configured
caller-skip depth by one, so the reported location is still the real caller.

This project models the pure logic inside that glue as immutable datatypes and
functions over `seq<char>`:

- `text.dfy` (module `Text`): Go's `strings.Split` and `strings.Join` with a
  one-character separator, first and last occurrence search, and `strconv.Itoa`
  decimal rendering together with a parser that inverts it.
- `caller.dfy` (module `Caller`): the "keep the last N `/`-segments" truncation
  shared by `getFuncName` and `getPathAndLineNumber`, and the `path:line`
  location with its `?:?` sentinel.
- `ansi.dfy` (module `Ansi`): the 256-colour palette codes, the SGR escape
  sequences, `createTextBackground`, and `%-Ns` left-justified padding. It also
  has `Visible`, the text a terminal shows once `ESC … m` sequences are
  consumed, and `Paint`, which also records the background and text colour
  each shown character is drawn in. The labels are specified against both.
- `logger.dfy` (module `Logger`): the configuration record and its defaults,
  levels and tags, the per-call record, the file line (with a parser that
  reads the line back when its bracketed fields hold no `]`), the terminal
  line with the colours each cell is drawn in, `print`, the three public log
  calls, and `PrintJSONIndent`.

The configuration is passed explicitly instead of being a global. The model
takes these as inputs instead of computing them:

- the stack lookup: a function from a skip depth to the function name and
  frame found there;
- the formatted timestamp;
- the JSON encoder's answer, a value that may carry a failure.

Go's `int` is modelled as on 64-bit platforms, as a subset type of 64-bit
integers. The skip counter's `+1`/`-1` uses two's-complement wrap-around.

Two details of the code shape the model:

- An unresolved frame gives the location `?:?`.
- There is one terminal layout. The level is padded to 7 columns. The
  function cell is empty when names are off, but its tab stays.

## Model

| member | source | states |
|---|---|---|
| Text.Split | gologger.go:205 | the pieces contain no separator, there is one more piece than there are separators, and joining them gives back the input |
| Text.SplitJoin | gologger.go:218 | splitting the join of separator-free pieces returns exactly those pieces |
| Text.Decimal | gologger.go:242 | the rendering is an optional minus (present exactly for negative numbers) then digits; it reads back as the number, and a leading `0` occurs only in the numeral `0` itself, so it is the canonical numeral |
| Caller.KeepLast | gologger.go:205-219 | the result is always a suffix of the input; it is the whole input when the depth is non-positive or at least the segment count; otherwise its segments are exactly the last n segments of the input |
| Caller.KeepLastTwice | gologger.go:228-241 | for positive depths, truncating to m and then to n segments equals truncating once to min(m, n), so truncation is idempotent |
| Caller.Location | gologger.go:222-243 | the location is `?:?` exactly when the frame is unresolved; otherwise it ends with a colon and the line's canonical numeral, and splitting at the last colon recovers the truncated path and the line number |
| Ansi.Code | gologger.go:58-66 | every palette code is non-empty and holds no `m` and no escape, so it cannot end an escape sequence early; the reverse table reads each code back to its colour, so no two colours share a code |
| Ansi.Background | gologger.go:191-193 | the background escape is one well-formed SGR sequence (ESC, parameters without `m`, then `m`), and reading it back gives "set the background to exactly this colour" |
| Ansi.Foreground | gologger.go:195-197 | the text-colour escape is one well-formed SGR sequence, and reading it back gives "set the text colour to exactly this colour" |
| Ansi.TextBackground | gologger.go:186-189 | the label starts with the background escape followed by the text-colour escape, and ends with the reset `ESC[0m` |
| Ansi.VisibleLabelThen | gologger.go:186-189 | an escape-free text's label displays as the text with one space either side, and whatever follows displays unchanged |
| Ansi.PadRight | gologger.go:167 | the padded text has length max(w, \|text\|), starts with the text, and has only spaces after it, so it never truncates |
| Ansi.TrimPadRight | gologger.go:169 | padding adds only trailing spaces: trimming the padded text equals trimming the text |
| Ansi.LabelWidth | gologger.go:174 | a padded escape-free label displays as max(w, \|text\|) + 2 characters |
| Ansi.PaintVisible | gologger.go:186-197 | the characters a colour-tracking terminal draws are exactly the visible text |
| Ansi.PaintLabelThen | gologger.go:186-189 | an escape-free text's label is drawn as the text with one space either side, every character in the label's background and text colour, and whatever follows is drawn in the default colours |
| Ansi.VisibleRender | gologger.go:177 | a sequence of plain and styled pieces with escape-free texts displays as the concatenation of their shown texts |
| Logger.LevelName | gologger.go:86 | each level's name reads back to that level, fits the 7-column level field, and holds no `]` or escape |
| Logger.TagOf | gologger.go:91-94 | each level has its own background colour, which identifies the level, and the text colour differs from the background |
| Logger.TagTable | gologger.go:107-110 | WARNING is yellow on black, ERROR is red with white text, INFO is green with white text |
| Logger.NewRecord | gologger.go:117-126 | the record carries the level, message and timestamp unchanged and the level's tag; its function name is the caller's name cut to the function depth (a suffix of it, all of it for a non-positive depth); its location is the frame's location at the location depth: `?:?` exactly when the frame is unresolved, and otherwise reading back as the file cut to the location depth and the line |
| Logger.DefaultShortNames | gologger.go:29-40 | with the default configuration (depths of one) a record's function name is exactly the last `/`-segment of the caller's name, and its location's path is exactly the last segment of the file |
| Logger.FileLine | gologger.go:157-161 | the file line starts with `[time][LEVEL]`, always ends with the location bracket, a space and the message, and has the length of its fields plus the bracket characters |
| Logger.FileLineFuncToggle | gologger.go:158-160 | turning function names on inserts exactly `[func]` after the header and changes nothing else |
| Logger.FileLineRoundTrip | gologger.go:161 | when the timestamp, function and location hold no `]`, parsing the file line recovers every field, including the message |
| Logger.TerminalLine | gologger.go:176-183 | a terminal line is produced exactly in debug mode |
| Logger.TerminalPaint | gologger.go:165-177 | when the time, function name and location hold no escape character, the terminal line is drawn as the time in black on grey, the padded level in the level tag's text colour on its background, the padded function (when names are on) in white on blue, the padded location in white on cyan, the tabs and bars in the default colours, and then the message, starting in the default colours |
| Logger.TerminalColumns | gologger.go:165-177 | when the time, function name and location hold no escape character, the line handed to the column writer displays as each field padded to its column (7, 30, 40) between spaces, with tabs and bars between the cells, then the message |
| Logger.Print | gologger.go:143-162 | file text is produced exactly when file logging is on, and it is the file line plus a newline |
| Logger.Log | gologger.go:83-129 | with file logging on, the appended text starts with `[time][LEVEL]` and ends with the message and a newline; the terminal line exists exactly in debug mode |
| Logger.LogTerminalLine | gologger.go:83-129 | the terminal line of a log call is the terminal rendering of the record for the caller found at the configured skip depth, with the level's own tag, the message and timestamp unchanged, and the caller's function name and location cut to the configured depths |
| Logger.LogReportsCaller | gologger.go:85-89 | the file line of a log call reads back to the timestamp, level, message, and the caller found at the configured skip depth: its function name cut to the function depth and its location cut to the location depth |
| Logger.PrintJSONIndent | gologger.go:131-141 | the inner INFO (encoded value) or ERROR (encoder failure) call runs with the skip depth one higher, and afterwards the configuration equals the original, on both paths |
| Logger.AddWrap | gologger.go:132-140 | the skip counter's `+1` and `-1` give the one 64-bit `int` congruent to the true sum modulo 2^64 |
| Logger.SkipRaiseLower | gologger.go:132-140 | below the largest int the raised depth is exactly k+1, and lowering it again always gives k back, even across wrap-around |

## Left out

- Stack introspection (`runtime.Callers`, `runtime.FuncForPC`, `runtime.Caller`, gologger.go:200-203 and 223) is runtime reflection. The function name and the frame (file, line, `ok`) found at a skip depth are inputs: the `Stack` function and `Frame`.
- Time zone loading and time formatting (gologger.go:84, 146, 154) depend on Go's layout formatting and the IANA zone database. The formatted timestamp is an opaque input string, and the configured zone and layout are carried but not interpreted.
- The model assumes the configured time zone loads. The code discards `time.LoadLocation`'s error (gologger.go:84). For an unknown zone the location is nil, and `In` panics at gologger.go:90, before anything is written. In `PrintJSONIndent` nothing defers the lowering, so the raised skip depth would then stay raised.
- Logger.ParseFileLine reads a file line back only when its bracketed fields hold no `]`. A generic function's runtime name such as `pkg.F[...]` holds one. For such a caller the line is still produced as modelled, but Logger.FileLineRoundTrip and Logger.LogReportsCaller say nothing about it.
- Logger.Stack: one lookup serves both the function name and the frame. At a skip depth equal to the largest `int`, the code's `runtime.Callers(k + 1)` wraps to a negative skip and no longer names the same frame as `runtime.Caller(k)`; the model does not separate the two lookups.
- JSON marshalling (gologger.go:133) is a reflection-based encoder. It is the `Marshal` input, which either holds the encoded text or the error message.
- Filesystem work is I/O with print-and-continue error handling and is not modelled: `WriteLogFile`, `SetWritable`, `SetReadOnly`, `CreateNewNestedDirectory`, `IsPathExist`, the directory derivation via `strings.Replace`, and the `filepath.Join` of the day's file name (gologger.go:148, 245-304). The model stops at the text that would be appended.
- `tabwriter` column alignment and writing to stdout (gologger.go:178-181) are library I/O. The model stops at the string handed to the writer and leaves out `Fprintln`'s newline.
- Logger.TerminalLine: its own contract states only when a line exists; the characters the line displays are stated by Logger.TerminalColumns, and the colours they are drawn in by Logger.TerminalPaint.
- Ansi.Visible models only SGR sequences that end in `m`, which are the only escapes the logger emits. It is not a general terminal emulator.
- Width in `%-Ns` is counted in characters. Go counts runes, which is the same for Dafny's Unicode `char`. Display width of wide characters is not modelled.
- Concurrent use of the global configuration is not modelled, because the configuration is passed explicitly.

=== FILE: ansi.dfy ===
/**
 Terminal styling: the 256-colour palette codes the logger uses, the SGR
 escape sequences built from them, coloured labels, and left-justified
 padding to a fixed column width (`%-Ns`). `Visible` is the text a terminal
 displays once the `ESC ... m` sequences are consumed; it is the reference
 against which the labels are stated.
 */
module Ansi {
  import opened Text

  /** The escape character U+001B that starts every sequence. */
  const Esc: char := 27 as char

  /** `ESC [0m`: reset all attributes. */
  const Reset: string := [Esc] + "[0m"

  datatype Color = Black | Red | Green | Yellow | Blue | Magenta | Cyan | Grey | White

  /**
   The colour's parameter text; prefixed with `4` it selects a background,
   with `3` a foreground (`48;5;1` is background palette entry 1).
   */
  function Code(c: Color): (r: string)
    ensures |r| > 0 && 'm' !in r && Esc !in r
    ensures ColorOfCode(r) == Some(c)
  {
    match c
    case Black => "0"
    case Red => "8;5;1"
    case Green => "8;5;2"
    case Yellow => "8;5;3"
    case Blue => "8;5;4"
    case Magenta => "8;5;5"
    case Cyan => "8;5;6"
    case Grey => "8;5;7"
    case White => "8;5;231"
  }

  /** The colour a palette code selects, if any: the inverse of `Code`. */
  function ColorOfCode(code: string): Option<Color> {
    if code == "0" then Some(Black)
    else if code == "8;5;1" then Some(Red)
    else if code == "8;5;2" then Some(Green)
    else if code == "8;5;3" then Some(Yellow)
    else if code == "8;5;4" then Some(Blue)
    else if code == "8;5;5" then Some(Magenta)
    else if code == "8;5;6" then Some(Cyan)
    else if code == "8;5;7" then Some(Grey)
    else if code == "8;5;231" then Some(White)
    else None
  }

  /** The attribute a colour escape sets. */
  datatype Layer = Bg | Fg

  /**
   Read a colour escape back: `ESC [`, then `4` for the background or `3` for
   the text colour, then a palette code, then `m`.
   */
  function ReadSgr(s: string): Option<(Layer, Color)> {
    if |s| >= 4 && s[0] == Esc && s[1] == '[' && (s[2] == '4' || s[2] == '3') && s[|s| - 1] == 'm' then
      match ColorOfCode(s[3..|s| - 1])
      case None => None
      case Some(c) => Some((if s[2] == '4' then Bg else Fg, c))
    else None
  }

  /** An SGR sequence `ESC` + `body` + `m`, as a terminal reads one. */
  predicate IsSgr(s: string) {
    |s| >= 2 && s[0] == Esc && s[|s| - 1] == 'm' && 'm' !in s[1..|s| - 1]
  }

  /**
   `createBackgroundColor`: SGR parameter `4` followed by the palette code. It
   reads back as setting the background to exactly `c`.
   */
  function Background(c: Color): (r: string)
    ensures IsSgr(r)
    ensures ReadSgr(r) == Some((Bg, c))
  {
    var r := [Esc] + "[4" + Code(c) + "m";
    assert r[3..|r| - 1] == Code(c);
    r
  }

  /**
   `createColor`: SGR parameter `3` followed by the palette code. It reads back
   as setting the text colour to exactly `c`, so it is never mistaken for a
   background escape.
   */
  function Foreground(c: Color): (r: string)
    ensures IsSgr(r)
    ensures ReadSgr(r) == Some((Fg, c))
  {
    var r := [Esc] + "[3" + Code(c) + "m";
    assert r[3..|r| - 1] == Code(c);
    r
  }

  /**
   The text a terminal displays: ordinary characters are shown, an escape
   sequence from `ESC` through the next `m` is consumed, and an escape with
   no `m` after it swallows the rest.
   */
  function Visible(s: string): string
    decreases |s|
  {
    if |s| == 0 then ""
    else if s[0] != Esc then [s[0]] + Visible(s[1..])
    else
      match IndexOf(s, 'm')
      case None => ""
      case Some(k) => Visible(s[k + 1..])
  }

  /** Plain text passes through unchanged. */
  lemma {:induction false} VisiblePlain(p: string, rest: string)
    requires Esc !in p
    ensures Visible(p + rest) == p + Visible(rest)
    decreases |p|
  {
    if |p| > 0 {
      assert (p + rest)[0] == p[0] && p[0] in p;
      assert (p + rest)[1..] == p[1..] + rest;
      VisiblePlain(p[1..], rest);
      assert [p[0]] + (p[1..] + Visible(rest)) == p + Visible(rest);
    } else {
      assert p + rest == rest;
    }
  }

  /** An escape displays what follows its first `m`. */
  lemma VisibleEscape(t: string, k: nat)
    requires |t| > 0 && t[0] == Esc && IndexOf(t, 'm') == Some(k)
    ensures Visible(t) == Visible(t[k + 1..])
  {
  }

  /** A complete SGR sequence displays nothing. */
  lemma VisibleSgr(e: string, rest: string)
    requires IsSgr(e)
    ensures Visible(e + rest) == Visible(rest)
  {
    var inner := e[1..|e| - 1];
    var body := [Esc] + inner;
    assert e == body + ['m'];
    assert 'm' !in body by {
      assert 'm' != Esc && 'm' !in inner;
    }
    var t := e + rest;
    assert t == body + ['m'] + rest;
    IndexOfAfter(body, 'm', rest);
    assert t[0] == Esc;
    VisibleEscape(t, |body|);
    assert t[|body| + 1..] == rest;
  }

  /**
   `createTextBackground`: background escape, foreground escape, the text with
   one space either side, reset. It opens with the background escape followed
   by the foreground escape and closes with the reset.
   */
  function TextBackground(bg: Color, fg: Color, text: string): (r: string)
    ensures Background(bg) + Foreground(fg) <= r
    ensures IsSuffix(Reset, r)
  {
    Background(bg) + Foreground(fg) + (" " + text + " ") + Reset
  }

  /**
   Two SGR sequences, plain text and a reset display as the plain text alone,
   and whatever follows is displayed as it would be on its own.
   */
  lemma StyledShows(e1: string, e2: string, shown: string, rest: string)
    requires IsSgr(e1) && IsSgr(e2) && Esc !in shown
    ensures Visible(e1 + (e2 + (shown + (Reset + rest)))) == shown + Visible(rest)
  {
    var t3 := Reset + rest;
    var t2 := shown + t3;
    var t1 := e2 + t2;
    assert IsSgr(Reset);
    VisibleSgr(Reset, rest);
    VisiblePlain(shown, t3);
    VisibleSgr(e2, t2);
    VisibleSgr(e1, t1);
  }

  /** A label followed by more output displays as its spaced text, then the rest. */
  lemma VisibleLabelThen(bg: Color, fg: Color, text: string, rest: string)
    requires Esc !in text
    ensures Visible(TextBackground(bg, fg, text) + rest) == " " + text + " " + Visible(rest)
  {
    var shown := " " + text + " ";
    StyledShows(Background(bg), Foreground(fg), shown, rest);
    Regroup(Background(bg), Foreground(fg), shown, Reset, rest);
  }

  /** A piece of terminal output: text as is, or a coloured label around it. */
  datatype Span = Plain(text: string) | Styled(bg: Color, fg: Color, text: string)

  function RenderSpan(sp: Span): string {
    match sp
    case Plain(text) => text
    case Styled(bg, fg, text) => TextBackground(bg, fg, text)
  }

  /** What a span displays: its text, with a space either side when styled. */
  function ShownSpan(sp: Span): string {
    match sp
    case Plain(text) => text
    case Styled(_, _, text) => " " + text + " "
  }

  /** The pieces written one after another. */
  function Render(spans: seq<Span>): string {
    if |spans| == 0 then "" else RenderSpan(spans[0]) + Render(spans[1..])
  }

  /** The pieces' displayed texts one after another. */
  function Shown(spans: seq<Span>): string {
    if |spans| == 0 then "" else ShownSpan(spans[0]) + Shown(spans[1..])
  }

  predicate EscFree(spans: seq<Span>) {
    forall i :: 0 <= i < |spans| ==> Esc !in spans[i].text
  }

  /** One escape-free span displays as its shown text, then the rest. */
  lemma VisibleSpanThen(sp: Span, rest: string)
    requires Esc !in sp.text
    ensures Visible(RenderSpan(sp) + rest) == ShownSpan(sp) + Visible(rest)
  {
    match sp
    case Plain(text) =>
      VisiblePlain(text, rest);
    case Styled(bg, fg, text) =>
      VisibleLabelThen(bg, fg, text, rest);
  }

  /**
   Rendered pieces whose texts hold no escape display as their shown texts,
   and what follows them displays as it would on its own.
   */
  lemma {:induction false} VisibleRender(spans: seq<Span>, rest: string)
    requires EscFree(spans)
    ensures Visible(Render(spans) + rest) == Shown(spans) + Visible(rest)
    decreases |spans|
  {
    if |spans| == 0 {
      assert Render(spans) + rest == rest;
    } else {
      var head := RenderSpan(spans[0]);
      var tail := Render(spans[1..]) + rest;
      assert EscFree(spans[1..]) by {
        forall i | 0 <= i < |spans[1..]|
          ensures Esc !in spans[1..][i].text
        {
          assert spans[1..][i] == spans[i + 1];
        }
      }
      VisibleRender(spans[1..], rest);
      Assoc(head, Render(spans[1..]), rest);
      assert Render(spans) + rest == head + tail;
      assert Esc !in spans[0].text;
      VisibleSpanThen(spans[0], tail);
      assert Shown(spans) == ShownSpan(spans[0]) + Shown(spans[1..]);
      Assoc(ShownSpan(spans[0]), Shown(spans[1..]), Visible(rest));
    }
  }

  lemma {:induction false} RenderAppend(a: seq<Span>, b: seq<Span>)
    ensures Render(a + b) == Render(a) + Render(b)
    decreases |a|
  {
    if |a| == 0 {
      assert a + b == b;
    } else {
      var x := RenderSpan(a[0]);
      ConsConcat(a, b);
      HeadTail(a[0], a[1..] + b);
      assert Render(a + b) == x + Render(a[1..] + b);
      RenderAppend(a[1..], b);
      assert Render(a) == x + Render(a[1..]);
      Assoc(x, Render(a[1..]), Render(b));
    }
  }

  lemma {:induction false} ShownAppend(a: seq<Span>, b: seq<Span>)
    ensures Shown(a + b) == Shown(a) + Shown(b)
    decreases |a|
  {
    if |a| == 0 {
      assert a + b == b;
    } else {
      var x := ShownSpan(a[0]);
      ConsConcat(a, b);
      HeadTail(a[0], a[1..] + b);
      assert Shown(a + b) == x + Shown(a[1..] + b);
      ShownAppend(a[1..], b);
      assert Shown(a) == x + Shown(a[1..]);
      Assoc(x, Shown(a[1..]), Shown(b));
    }
  }

  lemma ShownOne(sp: Span)
    ensures Shown([sp]) == ShownSpan(sp)
  {
    assert [sp][1..] == [];
  }

  lemma RenderOne(sp: Span)
    ensures Render([sp]) == RenderSpan(sp)
  {
    assert [sp][1..] == [];
  }

  lemma Assoc<T>(a: seq<T>, b: seq<T>, c: seq<T>)
    ensures a + (b + c) == a + b + c
  {
  }

  lemma Regroup(a: string, b: string, c: string, d: string, e: string)
    ensures a + b + c + d + e == a + (b + (c + (d + e)))
  {
  }

  /** The colours the terminal is drawing with; `None` is the terminal's default. */
  datatype Pen = Pen(bg: Option<Color>, fg: Option<Color>)

  const DefaultPen: Pen := Pen(None, None)

  /** A displayed character together with the colours it is drawn in. */
  datatype Cell = Cell(ch: char, pen: Pen)

  /**
   The pen after an escape sequence: the reset restores the defaults, a colour
   escape sets its layer, and any other sequence leaves the pen as it is.
   */
  function Apply(pen: Pen, esc: string): Pen {
    if esc == Reset then DefaultPen
    else
      match ReadSgr(esc)
      case Some((Bg, c)) => pen.(bg := Some(c))
      case Some((Fg, c)) => pen.(fg := Some(c))
      case None => pen
  }

  /**
   What a terminal draws for `s` starting with `pen`: the characters `Visible`
   keeps, each with the colours in force where it appears.
   */
  function Paint(s: string, pen: Pen): seq<Cell>
    decreases |s|
  {
    if |s| == 0 then []
    else if s[0] != Esc then [Cell(s[0], pen)] + Paint(s[1..], pen)
    else
      match IndexOf(s, 'm')
      case None => []
      case Some(k) => Paint(s[k + 1..], Apply(pen, s[..k + 1]))
  }

  /** Text drawn in a single pen. */
  function Ink(text: string, pen: Pen): (r: seq<Cell>)
    ensures |r| == |text|
    ensures forall i :: 0 <= i < |r| ==> r[i] == Cell(text[i], pen)
  {
    if |text| == 0 then [] else [Cell(text[0], pen)] + Ink(text[1..], pen)
  }

  /** The characters of drawn cells. */
  function Chars(cells: seq<Cell>): string {
    if |cells| == 0 then "" else [cells[0].ch] + Chars(cells[1..])
  }

  lemma {:induction false} CharsAppend(a: seq<Cell>, b: seq<Cell>)
    ensures Chars(a + b) == Chars(a) + Chars(b)
    decreases |a|
  {
    if |a| == 0 {
      assert a + b == b;
    } else {
      ConsConcat(a, b);
      HeadTail(a[0], a[1..] + b);
      CharsAppend(a[1..], b);
    }
  }

  /** Painting only adds colours: its characters are exactly what `Visible` shows. */
  lemma {:induction false} PaintVisible(s: string, pen: Pen)
    ensures Chars(Paint(s, pen)) == Visible(s)
    decreases |s|
  {
    if |s| > 0 {
      if s[0] != Esc {
        PaintVisible(s[1..], pen);
        CharsAppend([Cell(s[0], pen)], Paint(s[1..], pen));
      } else {
        match IndexOf(s, 'm')
        case None =>
        case Some(k) =>
          PaintVisible(s[k + 1..], Apply(pen, s[..k + 1]));
      }
    }
  }

  /** Escape-free text is drawn in the current pen, and the rest follows in that pen. */
  lemma {:induction false} PaintPlain(p: string, rest: string, pen: Pen)
    requires Esc !in p
    ensures Paint(p + rest, pen) == Ink(p, pen) + Paint(rest, pen)
    decreases |p|
  {
    if |p| > 0 {
      assert (p + rest)[0] == p[0] && p[0] in p;
      assert (p + rest)[1..] == p[1..] + rest;
      PaintPlain(p[1..], rest, pen);
      var c := [Cell(p[0], pen)];
      assert Paint(p + rest, pen) == c + (Ink(p[1..], pen) + Paint(rest, pen));
      assert Ink(p, pen) == c + Ink(p[1..], pen);
    } else {
      assert p + rest == rest;
    }
  }

  /** An escape switches the pen for what follows its first `m`. */
  lemma PaintEscape(t: string, k: nat, pen: Pen)
    requires |t| > 0 && t[0] == Esc && IndexOf(t, 'm') == Some(k)
    ensures Paint(t, pen) == Paint(t[k + 1..], Apply(pen, t[..k + 1]))
  {
  }

  /** A complete SGR sequence draws nothing and switches the pen. */
  lemma PaintSgr(e: string, rest: string, pen: Pen)
    requires IsSgr(e)
    ensures Paint(e + rest, pen) == Paint(rest, Apply(pen, e))
  {
    var inner := e[1..|e| - 1];
    var body := [Esc] + inner;
    assert e == body + ['m'];
    assert 'm' !in body by {
      assert 'm' != Esc && 'm' !in inner;
    }
    var t := e + rest;
    assert t == body + ['m'] + rest;
    IndexOfAfter(body, 'm', rest);
    assert t[0] == Esc;
    PaintEscape(t, |body|, pen);
    assert t[|body| + 1..] == rest;
    assert t[..|body| + 1] == e;
  }

  /** The reset is no colour escape, so a colour escape never resets the pen. */
  lemma ResetIsNoColour()
    ensures ReadSgr(Reset) == None
  {
    assert Reset[2] == '0';
  }

  /** A background then a text-colour escape leave exactly those two colours in force. */
  lemma ApplyColours(pen: Pen, bg: Color, fg: Color)
    ensures Apply(Apply(pen, Background(bg)), Foreground(fg)) == Pen(Some(bg), Some(fg))
  {
    ResetIsNoColour();
    assert Background(bg) != Reset;
    assert Foreground(fg) != Reset;
  }

  /** Two SGR sequences, plain text and a reset: the text in the pen the sequences set, then the defaults. */
  lemma PaintStyled(e1: string, e2: string, shown: string, rest: string, pen: Pen)
    requires IsSgr(e1) && IsSgr(e2) && Esc !in shown
    ensures Paint(e1 + (e2 + (shown + (Reset + rest))), pen)
         == Ink(shown, Apply(Apply(pen, e1), e2)) + Paint(rest, DefaultPen)
  {
    var p1 := Apply(pen, e1);
    var p2 := Apply(p1, e2);
    var t3 := Reset + rest;
    var t2 := shown + t3;
    var t1 := e2 + t2;
    assert IsSgr(Reset);
    PaintSgr(Reset, rest, p2);
    assert Apply(p2, Reset) == DefaultPen;
    PaintPlain(shown, t3, p2);
    PaintSgr(e2, t2, p1);
    PaintSgr(e1, t1, pen);
  }

  /**
   A label draws its spaced text in its own background and text colour,
   whatever pen was in force, and leaves the terminal's default colours for
   what follows.
   */
  lemma PaintLabelThen(bg: Color, fg: Color, text: string, rest: string, pen: Pen)
    requires Esc !in text
    ensures Paint(TextBackground(bg, fg, text) + rest, pen)
         == Ink(" " + text + " ", Pen(Some(bg), Some(fg))) + Paint(rest, DefaultPen)
  {
    var shown := " " + text + " ";
    PaintStyled(Background(bg), Foreground(fg), shown, rest, pen);
    Regroup(Background(bg), Foreground(fg), shown, Reset, rest);
    ApplyColours(pen, bg, fg);
  }

  /** How a span is drawn from the default pen: plain text as is, a label in its colours. */
  function PaintedSpan(sp: Span): seq<Cell> {
    match sp
    case Plain(text) => Ink(text, DefaultPen)
    case Styled(bg, fg, text) => Ink(" " + text + " ", Pen(Some(bg), Some(fg)))
  }

  /** The spans' drawings one after another. */
  function Painted(spans: seq<Span>): seq<Cell> {
    if |spans| == 0 then [] else PaintedSpan(spans[0]) + Painted(spans[1..])
  }

  lemma PaintSpanThen(sp: Span, rest: string)
    requires Esc !in sp.text
    ensures Paint(RenderSpan(sp) + rest, DefaultPen) == PaintedSpan(sp) + Paint(rest, DefaultPen)
  {
    match sp
    case Plain(text) =>
      PaintPlain(text, rest, DefaultPen);
    case Styled(bg, fg, text) =>
      PaintLabelThen(bg, fg, text, rest, DefaultPen);
  }

  /**
   Rendered pieces whose texts hold no escape are drawn piece by piece from the
   default pen: plain pieces in the default colours, labels in their own.
   */
  lemma {:induction false} PaintRender(spans: seq<Span>, rest: string)
    requires EscFree(spans)
    ensures Paint(Render(spans) + rest, DefaultPen) == Painted(spans) + Paint(rest, DefaultPen)
    decreases |spans|
  {
    if |spans| > 0 {
      var head := RenderSpan(spans[0]);
      var tail := Render(spans[1..]) + rest;
      assert EscFree(spans[1..]) by {
        forall i | 0 <= i < |spans[1..]|
          ensures Esc !in spans[1..][i].text
        {
          assert spans[1..][i] == spans[i + 1];
        }
      }
      PaintRender(spans[1..], rest);
      Assoc(head, Render(spans[1..]), rest);
      assert Render(spans) + rest == head + tail;
      assert Esc !in spans[0].text;
      PaintSpanThen(spans[0], tail);
      assert Painted(spans) == PaintedSpan(spans[0]) + Painted(spans[1..]);
      Assoc(PaintedSpan(spans[0]), Painted(spans[1..]), Paint(rest, DefaultPen));
    } else {
      assert Render(spans) + rest == rest;
    }
  }

  lemma {:induction false} PaintedAppend(a: seq<Span>, b: seq<Span>)
    ensures Painted(a + b) == Painted(a) + Painted(b)
    decreases |a|
  {
    if |a| == 0 {
      assert a + b == b;
    } else {
      var x := PaintedSpan(a[0]);
      ConsConcat(a, b);
      HeadTail(a[0], a[1..] + b);
      assert Painted(a + b) == x + Painted(a[1..] + b);
      PaintedAppend(a[1..], b);
      assert Painted(a) == x + Painted(a[1..]);
      Assoc(x, Painted(a[1..]), Painted(b));
    }
  }

  lemma PaintedOne(sp: Span)
    ensures Painted([sp]) == PaintedSpan(sp)
  {
    assert [sp][1..] == [];
  }

  /** `w` spaces. */
  function Spaces(w: nat): (r: string)
    ensures |r| == w && forall i :: 0 <= i < w ==> r[i] == ' '
  {
    seq(w, _ => ' ')
  }

  /**
   `fmt.Sprintf("%-Ns", text)`: the text, then spaces up to width `w`. The
   text is never cut; the width is counted in characters (Go counts runes).
   */
  function PadRight(text: string, w: nat): (r: string)
    ensures |r| == if |text| >= w then |text| else w
    ensures r[..|text|] == text
    ensures forall i :: |text| <= i < |r| ==> r[i] == ' '
  {
    if |text| >= w then text else text + Spaces(w - |text|)
  }

  /** Drop trailing spaces. */
  function TrimRight(s: string): (r: string)
    decreases |s|
  {
    if |s| > 0 && s[|s| - 1] == ' ' then TrimRight(s[..|s| - 1]) else s
  }

  /**
   Padding adds nothing but trailing spaces: trimming the padded text gives
   the same as trimming the text, so text without trailing spaces comes back
   unchanged.
   */
  lemma {:induction false} TrimPadRight(text: string, w: nat)
    ensures TrimRight(PadRight(text, w)) == TrimRight(text)
    decreases w
  {
    if |text| < w {
      var p := PadRight(text, w);
      assert p[..|p| - 1] == PadRight(text, w - 1);
      TrimPadRight(text, w - 1);
    }
  }

  /**
   A padded label displays as a fixed number of characters: the width plus
   the two surrounding spaces, or more when the text is wider.
   */
  lemma LabelWidth(bg: Color, fg: Color, text: string, w: nat)
    requires Esc !in text
    ensures |Visible(TextBackground(bg, fg, PadRight(text, w)))| == (if |text| >= w then |text| else w) + 2
  {
    var p := PadRight(text, w);
    assert Esc !in p by {
      if |text| < w {
        assert p == text + Spaces(w - |text|);
      }
    }
    VisibleLabelThen(bg, fg, p, "");
    assert TextBackground(bg, fg, p) + "" == TextBackground(bg, fg, p);
  }
}

=== FILE: caller.dfy ===
/**
 What the logger shows of its caller: the function name and the source path
 cut down to their last few `/`-separated segments, and the `path:line`
 location string. The stack lookup itself is not modelled; its answer (the
 function name, or the file, line and `ok` flag) is an input.
 */
module Caller {
  import opened Text

  /** The separator both truncations split on. */
  const Sep: char := '/'

  /** What the unresolved-frame location degrades to. */
  const UnknownLocation: string := "?:?"

  /**
   Keep the last `n` `/`-separated segments of `s`. A non-positive `n`, or one
   larger than the number of segments, keeps everything. The same algorithm
   shortens function names (by the configured function depth) and source paths
   (by the configured location depth).
   */
  function KeepLast(s: string, n: int): (r: string)
    ensures IsSuffix(r, s)
    ensures n <= 0 || n >= |Split(s, Sep)| ==> r == s
    ensures 0 < n <= |Split(s, Sep)| ==>
      var parts := Split(s, Sep);
      Split(r, Sep) == parts[|parts| - n..]
  {
    var parts := Split(s, Sep);
    if n <= 0 || n >= |parts| then
      assert s[|s| - |s|..] == s;
      assert parts[|parts| - |parts|..] == parts;
      Join(parts, Sep)
    else
      KeepTail(s, |parts| - n);
      Join(parts[|parts| - n..], Sep)
  }

  /** Joining the segments of `s` from the `k`-th on gives a suffix of `s` with exactly those segments. */
  lemma KeepTail(s: string, k: nat)
    requires k < |Split(s, Sep)|
    ensures var kept := Split(s, Sep)[k..];
      IsSuffix(Join(kept, Sep), s) && Split(Join(kept, Sep), Sep) == kept
  {
    var parts := Split(s, Sep);
    var kept := parts[k..];
    JoinTailIsSuffix(s, k, Sep);
    assert forall i :: 0 <= i < |kept| ==> Sep !in kept[i] by {
      forall i | 0 <= i < |kept| ensures Sep !in kept[i] { assert kept[i] == parts[k + i]; }
    }
    SplitJoin(kept, Sep);
  }

  /** Keeping one segment leaves exactly the last segment. */
  lemma KeepLastOne(s: string)
    ensures Sep !in KeepLast(s, 1)
    ensures var parts := Split(s, Sep); KeepLast(s, 1) == parts[|parts| - 1]
  {
    var r := KeepLast(s, 1);
    var parts := Split(r, Sep);
    if 1 >= |Split(s, Sep)| {
      assert r == s;
    }
    assert |parts| == 1;
    assert r == Join(parts, Sep) == parts[0];
  }

  /** A string is determined by its segments. */
  lemma SameSegmentsSameString(a: string, b: string)
    requires Split(a, Sep) == Split(b, Sep)
    ensures a == b
  {
    calc {
      a;
      Join(Split(a, Sep), Sep);
      Join(Split(b, Sep), Sep);
      b;
    }
  }

  /**
   Truncating twice with positive depths is truncating once with the smaller
   depth; in particular truncation is idempotent.
   */
  lemma KeepLastTwice(s: string, m: int, n: int)
    requires m > 0 && n > 0
    ensures KeepLast(KeepLast(s, m), n) == KeepLast(s, if m <= n then m else n)
  {
    var parts := Split(s, Sep);
    var c := |parts|;
    var once := KeepLast(s, m);
    if m >= c {
      assert once == s;
      if m < n {
        assert KeepLast(s, m) == s && KeepLast(s, n) == s;
      }
    } else {
      var segs := Split(once, Sep);
      assert segs == parts[c - m..];
      if n >= m {
        assert KeepLast(once, n) == once;
      } else {
        var twice := KeepLast(once, n);
        assert Split(twice, Sep) == segs[m - n..];
        assert segs[m - n..] == parts[c - n..];
        assert Split(KeepLast(s, n), Sep) == parts[c - n..];
        SameSegmentsSameString(twice, KeepLast(s, n));
      }
    }
  }

  /** The frame the source-location lookup resolves, or the lookup's failure. */
  datatype Frame = Unresolved | Resolved(file: string, line: int)

  /**
   The location shown for a frame: its path shortened to the last `n`
   segments, a colon and the decimal line number; `?:?` when the frame could
   not be resolved. Parsing the location back recovers the shortened path and
   the line exactly, and the sentinel appears only for an unresolved frame.
   */
  function Location(frame: Frame, n: int): (r: string)
    ensures r == UnknownLocation <==> frame.Unresolved?
    ensures frame.Resolved? ==> IsSuffix(":" + Decimal(frame.line), r)
    ensures ParseLocation(r) ==
      match frame
      case Unresolved => None
      case Resolved(file, line) => Some(PathLine(KeepLast(file, n), line))
  {
    match frame
    case Unresolved =>
      UnknownUnreadable();
      UnknownLocation
    case Resolved(file, line) =>
      var path := KeepLast(file, n);
      PathLineReadsBack(path, line);
      EndsWithLine(path, line);
      path + ":" + Decimal(line)
  }

  /** The sentinel reads back as no location: `?` is not a line number. */
  lemma UnknownUnreadable()
    ensures ParseLocation(UnknownLocation) == None
  {
    assert LastIndexOf(UnknownLocation, ':') == Some(1) by {
      assert UnknownLocation == "?" + [':'] + "?";
      LastIndexOfBefore("?", ':', "?");
    }
    assert !IsDecimal(UnknownLocation[2..]);
  }

  /** `path:line` reads back as the path and the line, and is never the sentinel. */
  lemma PathLineReadsBack(path: string, line: int)
    ensures var r := path + ":" + Decimal(line);
      r != UnknownLocation && ParseLocation(r) == Some(PathLine(path, line))
  {
    var digits := Decimal(line);
    var r := path + [':'] + digits;
    assert ':' !in digits;
    LastIndexOfBefore(path, ':', digits);
    AroundSeparator(path, ':', digits);
    assert ParseLocation(r) == Some(PathLine(path, line));
    UnknownUnreadable();
  }

  /** `path:line` ends with the colon and the line's numeral. */
  lemma EndsWithLine(path: string, line: int)
    ensures IsSuffix(":" + Decimal(line), path + ":" + Decimal(line))
  {
    var tail := ":" + Decimal(line);
    assert path + ":" + Decimal(line) == path + tail;
    assert (path + tail)[|path|..] == tail;
  }

  /** The pieces on either side of a separator are recovered by slicing. */
  lemma AroundSeparator(a: string, c: char, b: string)
    ensures (a + [c] + b)[..|a|] == a && (a + [c] + b)[|a| + 1..] == b
  {
  }

  datatype PathLine = PathLine(path: string, line: int)

  /**
   Read a location back: the text after the last colon must be a decimal
   numeral, the text before it is the path.
   */
  function ParseLocation(loc: string): Option<PathLine> {
    match LastIndexOf(loc, ':')
    case None => None
    case Some(i) =>
      if IsDecimal(loc[i + 1..]) then Some(PathLine(loc[..i], ParseDecimal(loc[i + 1..])))
      else None
  }
}

=== FILE: logger.dfy ===
/**
 The logger proper: its configuration, the three levels and their colour
 tags, the per-call record, the two renderings of a record (the plain line
 appended to the day's log file and the coloured line for the terminal), the
 public `Warning`/`Error`/`Info` calls and `PrintJSONIndent`.

 The configuration is passed explicitly instead of living in a global. What
 the source obtains from the runtime, the clock and the JSON encoder is given
 as input: the stack lookup is a function from a skip depth to the call site
 found there, the time is the already formatted timestamp, and the encoder's
 answer is a `Marshal` value.
 */
module Logger {
  import opened Text
  import opened Caller
  import opened Ansi

  /** Go's `int` on a 64-bit platform. */
  const MinInt: int := -0x8000_0000_0000_0000
  const MaxInt: int := 0x7fff_ffff_ffff_ffff
  type GoInt = x: int | MinInt <= x <= MaxInt

  /**
   Go's two's-complement `x + d` on `int`: the one 64-bit value that agrees
   with the true sum modulo 2^64.
   */
  function AddWrap(x: GoInt, d: GoInt): (r: GoInt)
    ensures (r - (x + d)) % 0x1_0000_0000_0000_0000 == 0
  {
    if x + d > MaxInt then x + d - 0x1_0000_0000_0000_0000
    else if x + d < MinInt then x + d + 0x1_0000_0000_0000_0000
    else x + d
  }

  datatype LogConfiguration = LogConfiguration(
    timeZone: string,
    timeFormat: string,
    path: string,
    createLogFile: bool,
    debugMode: bool,
    nestedLocationLevel: GoInt,
    logFuncName: bool,
    nestedFuncLevel: GoInt,
    runtimeCallerSkip: GoInt)

  /** The configuration a process starts with. */
  const DefaultConf := LogConfiguration(
    timeZone := "Asia/Jakarta",
    timeFormat := "2006-01-02T15:04:05-0700",
    path := "./logs",
    createLogFile := true,
    debugMode := true,
    nestedLocationLevel := 1,
    logFuncName := true,
    nestedFuncLevel := 1,
    runtimeCallerSkip := 2)

  /**
   With the default depths of one, a record names the caller's function by its
   last `/`-segment only, and its location's path is the file's last segment.
   */
  lemma DefaultShortNames(level: Level, message: string, site: CallSite, time: string)
    ensures var rec := NewRecord(DefaultConf, level, message, site, time);
      var names := Split(site.funcName, Sep);
      Sep !in rec.funcName && rec.funcName == names[|names| - 1]
    ensures var rec := NewRecord(DefaultConf, level, message, site, time);
      site.frame.Resolved? ==>
        var parsed := ParseLocation(rec.location);
        var dirs := Split(site.frame.file, Sep);
        parsed.Some? && Sep !in parsed.value.path && parsed.value.path == dirs[|dirs| - 1]
  {
    KeepLastOne(site.funcName);
    if site.frame.Resolved? {
      KeepLastOne(site.frame.file);
    }
  }

  datatype Level = Info | Warning | Error

  /** The level's name as written in both renderings. */
  function LevelName(l: Level): (r: string)
    ensures LevelOfName(r) == Some(l)
    ensures 0 < |r| <= 7
    ensures ']' !in r && Esc !in r
  {
    match l
    case Info => "INFO"
    case Warning => "WARNING"
    case Error => "ERROR"
  }

  /** The level a file line's second bracket names, if any. */
  function LevelOfName(name: string): Option<Level> {
    if name == "INFO" then Some(Info)
    else if name == "WARNING" then Some(Warning)
    else if name == "ERROR" then Some(Error)
    else None
  }

  /** The colour pair a level's terminal label is drawn in. */
  datatype Tag = Tag(background: Color, foreground: Color)

  /**
   The level's tag. Every level gets its own background colour, so the
   colour alone tells the levels apart, and the text is never drawn in the
   colour of its own background.
   */
  function TagOf(l: Level): (t: Tag)
    ensures LevelOfBackground(t.background) == Some(l)
    ensures t.foreground != t.background
  {
    match l
    case Warning => Tag(Yellow, Black)
    case Error => Tag(Red, White)
    case Info => Tag(Green, White)
  }

  /** The level whose label uses this background, if any. */
  function LevelOfBackground(c: Color): Option<Level> {
    match c
    case Yellow => Some(Warning)
    case Red => Some(Error)
    case Green => Some(Info)
    case _ => None
  }

  /** The fixed level-to-tag table. */
  lemma TagTable()
    ensures TagOf(Warning) == Tag(Yellow, Black)
    ensures TagOf(Error) == Tag(Red, White)
    ensures TagOf(Info) == Tag(Green, White)
  {
  }

  /**
   What the stack lookup finds when skipping a number of frames: the fully
   qualified function name and the source frame of the same caller.
   */
  datatype CallSite = CallSite(funcName: string, frame: Frame)

  /**
   One log call's data. `time` is the timestamp already formatted with the
   configured layout in the configured zone.
   */
  datatype LogRecord = LogRecord(
    level: Level,
    message: string,
    funcName: string,
    location: string,
    time: string,
    tag: Tag)

  /**
   Assemble the record for a call at `level`: the caller's function name cut
   to the configured function depth, its location cut to the configured
   location depth, the level's tag, the message unchanged.
   */
  function NewRecord(conf: LogConfiguration, level: Level, message: string, site: CallSite, time: string): (r: LogRecord)
    ensures r.level == level && r.message == message && r.time == time && r.tag == TagOf(level)
    ensures r.funcName == KeepLast(site.funcName, conf.nestedFuncLevel)
    ensures IsSuffix(r.funcName, site.funcName)
    ensures conf.nestedFuncLevel <= 0 ==> r.funcName == site.funcName
    ensures r.location == Location(site.frame, conf.nestedLocationLevel)
    ensures r.location == UnknownLocation <==> site.frame.Unresolved?
    ensures site.frame.Resolved? ==>
      ParseLocation(r.location)
        == Some(PathLine(KeepLast(site.frame.file, conf.nestedLocationLevel), site.frame.line))
  {
    LogRecord(
      level := level,
      message := message,
      funcName := KeepLast(site.funcName, conf.nestedFuncLevel),
      location := Location(site.frame, conf.nestedLocationLevel),
      time := time,
      tag := TagOf(level))
  }

  /** `[time][LEVEL]`: how every file line begins. */
  function Header(rec: LogRecord): string {
    "[" + rec.time + "][" + LevelName(rec.level) + "]"
  }

  /** The function-name bracket of a file line, empty when names are switched off. */
  function FuncBracket(conf: LogConfiguration, rec: LogRecord): string {
    if conf.logFuncName then "[" + rec.funcName + "]" else ""
  }

  /**
   The plain line for the log file:
   `[time][LEVEL][function][location] message`, the function bracket present
   only when function names are logged. It begins with the header, always
   carries the location bracket, and ends with the message verbatim.
   */
  function FileLine(conf: LogConfiguration, rec: LogRecord): (line: string)
    ensures Header(rec) <= line
    ensures IsSuffix("[" + rec.location + "] " + rec.message, line)
    ensures |line| == |rec.time| + |LevelName(rec.level)| + |rec.location| + |rec.message| + 7
                      + (if conf.logFuncName then |rec.funcName| + 2 else 0)
  {
    var logFuncName := if conf.logFuncName then "[" + rec.funcName + "]" else "";
    var line := "[" + rec.time + "][" + LevelName(rec.level) + "]" + logFuncName + "[" + rec.location + "] " + rec.message;
    assert line == Header(rec) + (FuncBracket(conf, rec) + ("[" + rec.location + "] " + rec.message));
    line
  }

  /**
   Switching function names on inserts exactly the bracketed name right after
   the header and changes nothing else; the location bracket is there either
   way.
   */
  lemma FileLineFuncToggle(conf: LogConfiguration, rec: LogRecord)
    ensures FileLine(conf.(logFuncName := true), rec)
         == Header(rec) + "[" + rec.funcName + "]" + FileLine(conf.(logFuncName := false), rec)[|Header(rec)|..]
  {
    var tail := "[" + rec.location + "] " + rec.message;
    var off := FileLine(conf.(logFuncName := false), rec);
    assert off == Header(rec) + tail;
    assert off[|Header(rec)|..] == tail;
  }

  /** The file line's layout, one bracketed field after another. */
  lemma FileLineShape(time: string, level: string, func: string, location: string, message: string)
    ensures "[" + time + "][" + level + "]" + func + "[" + location + "] " + message
         == "[" + time + "]" + ("[" + level + "]" + (func + ("[" + location + "]" + (" " + message))))
  {
    assert "][" == "]" + "[";
    assert "] " == "]" + " ";
  }

  /** The fields a file line is read back into. */
  datatype FileFields = FileFields(
    time: string,
    level: Level,
    funcName: Option<string>,
    location: string,
    message: string)

  /** `[field]rest`, split into the field and what follows the bracket. */
  function ReadBracket(s: string): Option<(string, string)> {
    if |s| > 0 && s[0] == '[' then
      match IndexOf(s[1..], ']')
      case None => None
      case Some(k) => Some((s[1..][..k], s[1..][k + 1..]))
    else None
  }

  lemma ReadBracketOf(field: string, rest: string)
    requires ']' !in field
    ensures ReadBracket("[" + field + "]" + rest) == Some((field, rest))
  {
    var s := "[" + field + "]" + rest;
    assert |s| > 0 && s[0] == '[';
    assert s[1..] == field + [']'] + rest;
    IndexOfAfter(field, ']', rest);
    assert s[1..][..|field|] == field;
    assert s[1..][|field| + 1..] == rest;
  }

  /**
   Read a file line back into its fields; `withFunc` says whether the line
   carries a function bracket.
   */
  function ParseFileLine(line: string, withFunc: bool): Option<FileFields> {
    match ReadBracket(line)
    case None => None
    case Some((time, r1)) =>
      match ReadBracket(r1)
      case None => None
      case Some((name, r2)) =>
        match LevelOfName(name)
        case None => None
        case Some(level) =>
          var func := if withFunc then ReadBracket(r2) else Some(("", r2));
          match func
          case None => None
          case Some((funcName, r3)) =>
            match ReadBracket(r3)
            case None => None
            case Some((location, r4)) =>
              if |r4| > 0 && r4[0] == ' ' then
                Some(FileFields(time, level, if withFunc then Some(funcName) else None, location, r4[1..]))
              else None
  }

  /**
   The file line is unambiguous: as long as the timestamp, function name and
   location hold no `]`, every field, the message included, is recovered from
   the line.
   */
  lemma FileLineRoundTrip(conf: LogConfiguration, rec: LogRecord)
    requires ']' !in rec.time && ']' !in rec.location
    requires conf.logFuncName ==> ']' !in rec.funcName
    ensures ParseFileLine(FileLine(conf, rec), conf.logFuncName)
         == Some(FileFields(rec.time, rec.level, if conf.logFuncName then Some(rec.funcName) else None,
                            rec.location, rec.message))
  {
    var func := if conf.logFuncName then Some(rec.funcName) else None;
    FileLineShape(rec.time, LevelName(rec.level), FuncBracket(conf, rec), rec.location, rec.message);
    ParseLayout(rec.time, rec.level, func, rec.location, rec.message);
  }

  /** Parsing a line laid out field by field recovers the fields. */
  lemma ParseLayout(time: string, level: Level, func: Option<string>, location: string, message: string)
    requires ']' !in time && ']' !in location
    requires func.Some? ==> ']' !in func.value
    ensures ParseFileLine(
              "[" + time + "]" + ("[" + LevelName(level) + "]" +
                ((if func.Some? then "[" + func.value + "]" else "") + ("[" + location + "]" + (" " + message)))),
              func.Some?)
         == Some(FileFields(time, level, func, location, message))
  {
    var name := LevelName(level);
    var r4 := " " + message;
    var r3 := "[" + location + "]" + r4;
    var r2 := (if func.Some? then "[" + func.value + "]" else "") + r3;
    var r1 := "[" + name + "]" + r2;
    ReadBracketOf(time, r1);
    ReadBracketOf(name, r2);
    if func.Some? {
      ReadBracketOf(func.value, r3);
    } else {
      assert r2 == r3;
    }
    ReadBracketOf(location, r4);
    assert r4[1..] == message;
  }

  /**
   The coloured line handed to the terminal, present exactly in debug mode:
   the time label, the level label padded to 7, the function label padded to
   30 (empty when names are switched off, its tab kept), the location label
   padded to 40 between bars, each separated by a tab, then a tab, a space
   and the message.
   */
  function TerminalLine(conf: LogConfiguration, rec: LogRecord): (r: Option<string>)
    ensures r.Some? <==> conf.debugMode
  {
    if conf.debugMode then
      var logTime := TextBackground(Grey, Black, rec.time);
      var logType := "|" + TextBackground(rec.tag.background, rec.tag.foreground, PadRight(LevelName(rec.level), 7));
      var logFuncName := if conf.logFuncName then "|" + TextBackground(Blue, White, PadRight(rec.funcName, 30)) else "";
      var logLocation := "|" + TextBackground(Cyan, White, PadRight(rec.location, 40)) + "|";
      Some(logTime + "\t" + logType + "\t" + logFuncName + "\t" + logLocation + "\t " + rec.message)
    else
      None
  }

  /**
   The terminal line's pieces in the order they are formatted: the time label,
   a tab, the level label behind a bar, a tab, the function label behind a bar
   (nothing when names are switched off), a tab, the location label between
   bars, and the tab and space that precede the message.
   */
  function TerminalSpans(conf: LogConfiguration, rec: LogRecord): seq<Span> {
    var logTime := [Styled(Grey, Black, rec.time)];
    var logType := [Plain("|"), Styled(rec.tag.background, rec.tag.foreground, PadRight(LevelName(rec.level), 7))];
    var logFuncName := if conf.logFuncName then [Plain("|"), Styled(Blue, White, PadRight(rec.funcName, 30))] else [];
    var logLocation := [Plain("|"), Styled(Cyan, White, PadRight(rec.location, 40)), Plain("|")];
    logTime + [Plain("\t")] + logType + [Plain("\t")] + logFuncName + [Plain("\t")] + logLocation + [Plain("\t ")]
  }

  /** The terminal line is its pieces rendered in order, then the message. */
  lemma TerminalLineSpans(conf: LogConfiguration, rec: LogRecord)
    requires conf.debugMode
    ensures TerminalLine(conf, rec).value == Render(TerminalSpans(conf, rec)) + rec.message
  {
    var logTime := [Styled(Grey, Black, rec.time)];
    var logType := [Plain("|"), Styled(rec.tag.background, rec.tag.foreground, PadRight(LevelName(rec.level), 7))];
    var logFuncName := if conf.logFuncName then [Plain("|"), Styled(Blue, White, PadRight(rec.funcName, 30))] else [];
    var logLocation := [Plain("|"), Styled(Cyan, White, PadRight(rec.location, 40)), Plain("|")];
    RenderChain(logTime, logType, logFuncName, logLocation);
    RenderOne(logTime[0]);
    RenderBarLabel(rec.tag.background, rec.tag.foreground, PadRight(LevelName(rec.level), 7));
    RenderBarLabelBar(Cyan, White, PadRight(rec.location, 40));
    if conf.logFuncName {
      RenderBarLabel(Blue, White, PadRight(rec.funcName, 30));
    }
  }

  lemma RenderChain(t: seq<Span>, l: seq<Span>, f: seq<Span>, loc: seq<Span>)
    ensures Render(t + [Plain("\t")] + l + [Plain("\t")] + f + [Plain("\t")] + loc + [Plain("\t ")])
         == Render(t) + "\t" + Render(l) + "\t" + Render(f) + "\t" + Render(loc) + "\t "
  {
    var tab := [Plain("\t")];
    RenderOne(Plain("\t"));
    RenderOne(Plain("\t "));
    RenderAppend(t, tab);
    RenderAppend(t + tab, l);
    RenderAppend(t + tab + l, tab);
    RenderAppend(t + tab + l + tab, f);
    RenderAppend(t + tab + l + tab + f, tab);
    RenderAppend(t + tab + l + tab + f + tab, loc);
    RenderAppend(t + tab + l + tab + f + tab + loc, [Plain("\t ")]);
  }

  lemma RenderBarLabel(bg: Color, fg: Color, text: string)
    ensures Render([Plain("|"), Styled(bg, fg, text)]) == "|" + TextBackground(bg, fg, text)
  {
    var s := [Plain("|"), Styled(bg, fg, text)];
    RenderOne(s[1]);
    assert s[1..] == [s[1]];
  }

  lemma RenderBarLabelBar(bg: Color, fg: Color, text: string)
    ensures Render([Plain("|"), Styled(bg, fg, text), Plain("|")]) == "|" + TextBackground(bg, fg, text) + "|"
  {
    var s := [Plain("|"), Styled(bg, fg, text), Plain("|")];
    RenderOne(s[2]);
    assert s[2..] == [s[2]];
    assert s[1..][1..] == s[2..];
    Assoc("|", TextBackground(bg, fg, text), "|");
  }

  /**
   How the line handed to the column writer in debug mode displays once its
   escapes are consumed: each field padded to its column width (level 7,
   function 30, location 40) with a space either side, the cells separated by
   tabs and bars, then the message. What the column writer then does with the
   tabs is not part of this model.
   */
  lemma TerminalColumns(conf: LogConfiguration, rec: LogRecord)
    requires conf.debugMode
    requires Esc !in rec.time && Esc !in rec.location
    requires conf.logFuncName ==> Esc !in rec.funcName
    ensures Visible(TerminalLine(conf, rec).value)
         == (" " + rec.time + " ")
            + "\t" + ("|" + " " + PadRight(LevelName(rec.level), 7) + " ")
            + "\t" + (if conf.logFuncName then "|" + " " + PadRight(rec.funcName, 30) + " " else "")
            + "\t" + ("|" + " " + PadRight(rec.location, 40) + " " + "|")
            + "\t " + Visible(rec.message)
  {
    var spans := TerminalSpans(conf, rec);
    NoEscPadded(LevelName(rec.level), 7);
    NoEscPadded(rec.location, 40);
    if conf.logFuncName {
      NoEscPadded(rec.funcName, 30);
    }
    assert EscFree(spans);
    TerminalLineSpans(conf, rec);
    VisibleRender(spans, rec.message);
    ShownTerminal(conf, rec);
  }

  /** The displayed text of the terminal pieces, column by column. */
  lemma ShownTerminal(conf: LogConfiguration, rec: LogRecord)
    ensures Shown(TerminalSpans(conf, rec))
         == (" " + rec.time + " ")
            + "\t" + ("|" + " " + PadRight(LevelName(rec.level), 7) + " ")
            + "\t" + (if conf.logFuncName then "|" + " " + PadRight(rec.funcName, 30) + " " else "")
            + "\t" + ("|" + " " + PadRight(rec.location, 40) + " " + "|")
            + "\t "
  {
    var logTime := [Styled(Grey, Black, rec.time)];
    var logType := [Plain("|"), Styled(rec.tag.background, rec.tag.foreground, PadRight(LevelName(rec.level), 7))];
    var logFuncName := if conf.logFuncName then [Plain("|"), Styled(Blue, White, PadRight(rec.funcName, 30))] else [];
    var logLocation := [Plain("|"), Styled(Cyan, White, PadRight(rec.location, 40)), Plain("|")];
    ShownChain(logTime, logType, logFuncName, logLocation);
    ShownOne(logTime[0]);
    BarLabel(rec.tag.background, rec.tag.foreground, PadRight(LevelName(rec.level), 7));
    BarLabelBar(Cyan, White, PadRight(rec.location, 40));
    if conf.logFuncName {
      BarLabel(Blue, White, PadRight(rec.funcName, 30));
    }
  }

  /** The shown text of the four columns with their separators. */
  lemma ShownChain(t: seq<Span>, l: seq<Span>, f: seq<Span>, loc: seq<Span>)
    ensures Shown(t + [Plain("\t")] + l + [Plain("\t")] + f + [Plain("\t")] + loc + [Plain("\t ")])
         == Shown(t) + "\t" + Shown(l) + "\t" + Shown(f) + "\t" + Shown(loc) + "\t "
  {
    var tab := [Plain("\t")];
    ShownOne(Plain("\t"));
    ShownOne(Plain("\t "));
    ShownAppend(t, tab);
    ShownAppend(t + tab, l);
    ShownAppend(t + tab + l, tab);
    ShownAppend(t + tab + l + tab, f);
    ShownAppend(t + tab + l + tab + f, tab);
    ShownAppend(t + tab + l + tab + f + tab, loc);
    ShownAppend(t + tab + l + tab + f + tab + loc, [Plain("\t ")]);
  }

  lemma BarLabel(bg: Color, fg: Color, text: string)
    ensures Shown([Plain("|"), Styled(bg, fg, text)]) == "|" + " " + text + " "
  {
    ShownPair(Plain("|"), Styled(bg, fg, text));
  }

  lemma BarLabelBar(bg: Color, fg: Color, text: string)
    ensures Shown([Plain("|"), Styled(bg, fg, text), Plain("|")]) == "|" + " " + text + " " + "|"
  {
    ShownTriple(Plain("|"), Styled(bg, fg, text), Plain("|"));
  }

  lemma ShownPair(a: Span, b: Span)
    ensures Shown([a, b]) == ShownSpan(a) + ShownSpan(b)
  {
    ShownOne(b);
    assert [a, b][1..] == [b];
  }

  lemma ShownTriple(a: Span, b: Span, c: Span)
    ensures Shown([a, b, c]) == ShownSpan(a) + ShownSpan(b) + ShownSpan(c)
  {
    ShownPair(b, c);
    assert [a, b, c][1..] == [b, c];
  }

  /**
   The colours the terminal draws the line in: the time on grey with black
   text, the level on its tag's background with its tag's text colour, the
   function name on blue and the location on cyan, both with white text; the
   tabs and bars in the terminal's default colours. The message is drawn
   starting from the default colours, its own escapes applying from there.
   The fields other than the message must hold no escape character.
   */
  lemma TerminalPaint(conf: LogConfiguration, rec: LogRecord)
    requires conf.debugMode
    requires Esc !in rec.time && Esc !in rec.location
    requires conf.logFuncName ==> Esc !in rec.funcName
    ensures Paint(TerminalLine(conf, rec).value, DefaultPen)
         == Ink(" " + rec.time + " ", Pen(Some(Grey), Some(Black)))
            + Ink("\t", DefaultPen)
            + (Ink("|", DefaultPen)
               + Ink(" " + PadRight(LevelName(rec.level), 7) + " ",
                     Pen(Some(rec.tag.background), Some(rec.tag.foreground))))
            + Ink("\t", DefaultPen)
            + (if conf.logFuncName
               then Ink("|", DefaultPen) + Ink(" " + PadRight(rec.funcName, 30) + " ", Pen(Some(Blue), Some(White)))
               else [])
            + Ink("\t", DefaultPen)
            + (Ink("|", DefaultPen)
               + Ink(" " + PadRight(rec.location, 40) + " ", Pen(Some(Cyan), Some(White)))
               + Ink("|", DefaultPen))
            + Ink("\t ", DefaultPen)
            + Paint(rec.message, DefaultPen)
  {
    var spans := TerminalSpans(conf, rec);
    NoEscPadded(LevelName(rec.level), 7);
    NoEscPadded(rec.location, 40);
    if conf.logFuncName {
      NoEscPadded(rec.funcName, 30);
    }
    assert EscFree(spans);
    TerminalLineSpans(conf, rec);
    PaintRender(spans, rec.message);
    PaintedTerminal(conf, rec);
  }

  /** The drawing of the terminal pieces, column by column. */
  lemma PaintedTerminal(conf: LogConfiguration, rec: LogRecord)
    ensures Painted(TerminalSpans(conf, rec))
         == Ink(" " + rec.time + " ", Pen(Some(Grey), Some(Black)))
            + Ink("\t", DefaultPen)
            + (Ink("|", DefaultPen)
               + Ink(" " + PadRight(LevelName(rec.level), 7) + " ",
                     Pen(Some(rec.tag.background), Some(rec.tag.foreground))))
            + Ink("\t", DefaultPen)
            + (if conf.logFuncName
               then Ink("|", DefaultPen) + Ink(" " + PadRight(rec.funcName, 30) + " ", Pen(Some(Blue), Some(White)))
               else [])
            + Ink("\t", DefaultPen)
            + (Ink("|", DefaultPen)
               + Ink(" " + PadRight(rec.location, 40) + " ", Pen(Some(Cyan), Some(White)))
               + Ink("|", DefaultPen))
            + Ink("\t ", DefaultPen)
  {
    var logTime := [Styled(Grey, Black, rec.time)];
    var logType := [Plain("|"), Styled(rec.tag.background, rec.tag.foreground, PadRight(LevelName(rec.level), 7))];
    var logFuncName := if conf.logFuncName then [Plain("|"), Styled(Blue, White, PadRight(rec.funcName, 30))] else [];
    var logLocation := [Plain("|"), Styled(Cyan, White, PadRight(rec.location, 40)), Plain("|")];
    PaintedChain(logTime, logType, logFuncName, logLocation);
    PaintedOne(logTime[0]);
    PaintedPair(Plain("|"), Styled(rec.tag.background, rec.tag.foreground, PadRight(LevelName(rec.level), 7)));
    PaintedTriple(Plain("|"), Styled(Cyan, White, PadRight(rec.location, 40)), Plain("|"));
    if conf.logFuncName {
      PaintedPair(Plain("|"), Styled(Blue, White, PadRight(rec.funcName, 30)));
    } else {
      assert Painted(logFuncName) == [];
    }
  }

  /** The drawing of the four columns with their separators. */
  lemma PaintedChain(t: seq<Span>, l: seq<Span>, f: seq<Span>, loc: seq<Span>)
    ensures Painted(t + [Plain("\t")] + l + [Plain("\t")] + f + [Plain("\t")] + loc + [Plain("\t ")])
         == Painted(t) + Ink("\t", DefaultPen) + Painted(l) + Ink("\t", DefaultPen) + Painted(f)
            + Ink("\t", DefaultPen) + Painted(loc) + Ink("\t ", DefaultPen)
  {
    var tab := [Plain("\t")];
    PaintedOne(Plain("\t"));
    PaintedOne(Plain("\t "));
    PaintedAppend(t, tab);
    PaintedAppend(t + tab, l);
    PaintedAppend(t + tab + l, tab);
    PaintedAppend(t + tab + l + tab, f);
    PaintedAppend(t + tab + l + tab + f, tab);
    PaintedAppend(t + tab + l + tab + f + tab, loc);
    PaintedAppend(t + tab + l + tab + f + tab + loc, [Plain("\t ")]);
  }

  lemma PaintedPair(a: Span, b: Span)
    ensures Painted([a, b]) == PaintedSpan(a) + PaintedSpan(b)
  {
    PaintedOne(b);
    assert [a, b][1..] == [b];
  }

  lemma PaintedTriple(a: Span, b: Span, c: Span)
    ensures Painted([a, b, c]) == PaintedSpan(a) + PaintedSpan(b) + PaintedSpan(c)
  {
    PaintedPair(b, c);
    assert [a, b, c][1..] == [b, c];
    Assoc(PaintedSpan(a), PaintedSpan(b), PaintedSpan(c));
  }

  lemma NoEscPadded(text: string, w: nat)
    requires Esc !in text
    ensures Esc !in PadRight(text, w)
  {
    if |text| < w {
      assert PadRight(text, w) == text + Spaces(w - |text|);
    }
  }

  /**
   The two outputs of one call: the text appended to the day's log file,
   present exactly when file logging is on, and the terminal line, present
   exactly in debug mode.
   */
  datatype Output = Output(fileText: Option<string>, terminal: Option<string>)

  /** `print` with the file write's trailing newline. */
  function Print(conf: LogConfiguration, rec: LogRecord): (out: Output)
    ensures out.fileText.Some? <==> conf.createLogFile
    ensures out.fileText.Some? ==> out.fileText.value == FileLine(conf, rec) + "\n"
    ensures out.terminal == TerminalLine(conf, rec)
  {
    Output(
      fileText := if conf.createLogFile then Some(FileLine(conf, rec) + "\n") else None,
      terminal := TerminalLine(conf, rec))
  }

  /**
   The stack as the logger sees it: the call site found after skipping `k`
   frames. For `k` below the largest `int`, `runtime.Callers(k + 1)` and
   `runtime.Caller(k)` name the same frame (the former counts its own frame),
   so one lookup serves both the function name and the file and line.
   */
  type Stack = GoInt -> CallSite

  /**
   `Warning`, `Error` and `Info`: build the record for the caller found at the
   configured skip depth and render it. When file logging is on, the text
   appended starts with `[time][LEVEL]` and ends with the message and a
   newline.
   */
  function Log(conf: LogConfiguration, level: Level, message: string, stack: Stack, time: string): (out: Output)
    ensures out.fileText.Some? <==> conf.createLogFile
    ensures out.terminal.Some? <==> conf.debugMode
    ensures out.fileText.Some? ==>
      ("[" + time + "][" + LevelName(level) + "]") <= out.fileText.value &&
      IsSuffix(message + "\n", out.fileText.value)
  {
    var rec := NewRecord(conf, level, message, stack(conf.runtimeCallerSkip), time);
    var out := Print(conf, rec);
    if conf.createLogFile then
      var line := FileLine(conf, rec);
      AppendNewline(line, Header(rec), "[" + rec.location + "] ", message);
      out
    else
      out
  }

  /**
   The terminal line of a log call is the one for the record of the caller
   found at the configured skip depth: it carries the level's own tag, the
   message and timestamp, and that caller's function name and location cut to
   the configured depths.
   */
  lemma LogTerminalLine(conf: LogConfiguration, level: Level, message: string, stack: Stack, time: string)
    ensures var site := stack(conf.runtimeCallerSkip);
      var rec := NewRecord(conf, level, message, site, time);
      Log(conf, level, message, stack, time).terminal == TerminalLine(conf, rec) &&
      rec == LogRecord(level, message, KeepLast(site.funcName, conf.nestedFuncLevel),
                       Location(site.frame, conf.nestedLocationLevel), time, TagOf(level))
  {
  }

  /**
   The file line written by a log call names the caller found at the
   configured skip depth: reading the line back (without its newline) gives
   that caller's function name cut to the function depth and its location cut
   to the location depth, besides the timestamp, level and message. The
   brackets must be unambiguous, so the fields may hold no `]`.
   */
  lemma LogReportsCaller(conf: LogConfiguration, level: Level, message: string, stack: Stack, time: string)
    requires ']' !in time
    requires ']' !in Location(stack(conf.runtimeCallerSkip).frame, conf.nestedLocationLevel)
    requires conf.logFuncName ==> ']' !in KeepLast(stack(conf.runtimeCallerSkip).funcName, conf.nestedFuncLevel)
    ensures var text := Log(conf, level, message, stack, time).fileText;
      var site := stack(conf.runtimeCallerSkip);
      text.Some? ==>
        |text.value| > 0 &&
        ParseFileLine(text.value[..|text.value| - 1], conf.logFuncName)
          == Some(FileFields(time, level,
                             if conf.logFuncName then Some(KeepLast(site.funcName, conf.nestedFuncLevel)) else None,
                             Location(site.frame, conf.nestedLocationLevel), message))
  {
    var rec := NewRecord(conf, level, message, stack(conf.runtimeCallerSkip), time);
    var line := FileLine(conf, rec);
    if conf.createLogFile {
      assert Log(conf, level, message, stack, time).fileText == Some(line + "\n");
      assert (line + "\n")[..|line|] == line;
      FileLineRoundTrip(conf, rec);
    }
  }

  lemma AppendNewline(line: string, head: string, lead: string, message: string)
    requires head <= line && IsSuffix(lead + message, line)
    ensures head <= line + "\n" && IsSuffix(message + "\n", line + "\n")
  {
    var n := line + "\n";
    assert n[|n| - |message + "\n"|..] == line[|line| - |message|..] + "\n";
    assert line[|line| - |message|..] == (lead + message)[|lead|..];
  }

  /** The JSON encoder's answer: the indented text or the failure's message. */
  datatype Marshal = Marshaled(json: string) | MarshalFailed(reason: string)

  /**
   `PrintJSONIndent`: raise the skip depth by one, log the encoded value at
   INFO (as `title:` then a newline then the JSON) or the encoder's failure at
   ERROR, then lower the skip depth again. The inner call sees the depth one
   deeper, so it reports the caller of `PrintJSONIndent`; afterwards the
   configuration is exactly what it was, on both paths.
   */
  method PrintJSONIndent(conf: LogConfiguration, title: string, marshaled: Marshal, stack: Stack, time: string)
    returns (out: Output, after: LogConfiguration)
    ensures after == conf
    ensures var inner := conf.(runtimeCallerSkip := AddWrap(conf.runtimeCallerSkip, 1));
      match marshaled
      case Marshaled(json) => out == Log(inner, Info, title + ":\n" + json, stack, time)
      case MarshalFailed(reason) => out == Log(inner, Error, reason, stack, time)
  {
    RaiseLowerRestores(conf);
    var c := conf.(runtimeCallerSkip := AddWrap(conf.runtimeCallerSkip, 1));
    match marshaled {
      case MarshalFailed(reason) =>
        out := Log(c, Error, reason, stack, time);
        c := c.(runtimeCallerSkip := AddWrap(c.runtimeCallerSkip, -1));
        after := c;
        return;
      case Marshaled(json) =>
        out := Log(c, Info, title + ":\n" + json, stack, time);
        c := c.(runtimeCallerSkip := AddWrap(c.runtimeCallerSkip, -1));
        after := c;
    }
  }

  /** Raising and then lowering the skip depth gives back the same configuration. */
  lemma RaiseLowerRestores(conf: LogConfiguration)
    ensures var raised := conf.(runtimeCallerSkip := AddWrap(conf.runtimeCallerSkip, 1));
      raised.(runtimeCallerSkip := AddWrap(raised.runtimeCallerSkip, -1)) == conf
  {
    SkipRaiseLower(conf.runtimeCallerSkip);
  }

  /**
   Below the largest `int` the inner call's depth is exactly one more; at the
   largest it wraps to the smallest and the restore still lands back on it.
   */
  lemma SkipRaiseLower(k: GoInt)
    ensures k < MaxInt ==> AddWrap(k, 1) == k + 1
    ensures AddWrap(AddWrap(k, 1), -1) == k
  {
  }
}

=== FILE: text.dfy ===
/**
 Character-sequence helpers the logger relies on: Go's `strings.Split` and
 `strings.Join` with a one-character separator, first/last occurrence search,
 and the decimal rendering of an integer (`cast.ToString` on an `int`, which is
 `strconv.Itoa`), together with a parser that inverts it.
 */
module Text {

  datatype Option<+T> = None | Some(value: T)

  /** `suffix` is a final segment of `s`. */
  predicate IsSuffix(suffix: string, s: string) {
    |suffix| <= |s| && s[|s| - |suffix|..] == suffix
  }

  /** Number of occurrences of `c` in `s`. */
  function Count(s: string, c: char): nat {
    if |s| == 0 then 0
    else (if s[0] == c then 1 else 0) + Count(s[1..], c)
  }

  /** Go's `strings.Join(parts, string(sep))`: the parts glued by `sep`. */
  function Join(parts: seq<string>, sep: char): string {
    if |parts| == 0 then ""
    else if |parts| == 1 then parts[0]
    else parts[0] + [sep] + Join(parts[1..], sep)
  }

  /**
   Go's `strings.Split(s, string(sep))`: the pieces of `s` between occurrences
   of `sep`. The empty string splits into one empty piece, and a separator at
   either end yields an empty piece there.
   */
  function Split(s: string, sep: char): (parts: seq<string>)
    ensures |parts| == Count(s, sep) + 1
    ensures forall i :: 0 <= i < |parts| ==> sep !in parts[i]
    ensures Join(parts, sep) == s
    decreases |s|
  {
    if |s| == 0 then [""]
    else
      var rest := Split(s[1..], sep);
      if s[0] == sep then
        assert ([""] + rest)[1..] == rest;
        [""] + rest
      else
        var parts := [[s[0]] + rest[0]] + rest[1..];
        assert parts[1..] == rest[1..];
        assert s == [s[0]] + s[1..];
        parts
  }

  /** Splitting a sequence by its first character. */
  lemma SplitCons(c: char, s: string, sep: char)
    ensures Split([c] + s, sep)
         == if c == sep then [""] + Split(s, sep)
            else [[c] + Split(s, sep)[0]] + Split(s, sep)[1..]
  {
    var t := [c] + s;
    assert |t| > 0 && t[0] == c && t[1..] == s;
  }

  /** A sequence built from a head and a tail takes them apart again. */
  lemma HeadTail<T>(x: T, y: seq<T>)
    ensures ([x] + y)[0] == x && ([x] + y)[1..] == y
  {
  }

  /** Moving the first element of `f` out of a concatenation. */
  lemma ConsConcat<T>(f: seq<T>, y: seq<T>)
    requires |f| > 0
    ensures f + y == [f[0]] + (f[1..] + y)
  {
  }

  /** Splitting a sequence that begins with a separator-free piece `f`. */
  lemma {:induction false} SplitPrefix(f: string, rest: string, sep: char)
    requires sep !in f
    ensures Split(f + rest, sep) == [f + Split(rest, sep)[0]] + Split(rest, sep)[1..]
    decreases |f|
  {
    var tail := Split(rest, sep);
    if |f| > 0 {
      var c, g := f[0], f[1..];
      assert c != sep by { assert c in f; }
      assert sep !in g by {
        forall i | 0 <= i < |g| ensures g[i] != sep { assert g[i] == f[i + 1]; }
      }
      ConsConcat(f, rest);
      var inner := Split(g + rest, sep);
      SplitCons(c, g + rest, sep);
      assert Split(f + rest, sep) == [[c] + inner[0]] + inner[1..];
      SplitPrefix(g, rest, sep);
      HeadTail(g + tail[0], tail[1..]);
      assert inner[0] == g + tail[0] && inner[1..] == tail[1..];
      ConsConcat(f, tail[0]);
    } else {
      assert f + rest == rest;
      assert f + tail[0] == tail[0];
      HeadTail(tail[0], tail[1..]);
      assert tail == [tail[0]] + tail[1..];
    }
  }

  /**
   `Split` inverts `Join` on separator-free pieces: splitting the joined
   string gives back exactly the pieces that were joined.
   */
  lemma {:induction false} SplitJoin(parts: seq<string>, sep: char)
    requires |parts| >= 1
    requires forall i :: 0 <= i < |parts| ==> sep !in parts[i]
    ensures Split(Join(parts, sep), sep) == parts
    decreases |parts|
  {
    var p0, ps := parts[0], parts[1..];
    ConsConcat(parts, []);
    assert parts == [p0] + ps;
    assert p0 + "" == p0;
    if |parts| == 1 {
      assert ps == [];
      SplitPrefix(p0, "", sep);
      assert Split("", sep) == [""];
    } else {
      var tail := Join(ps, sep);
      assert forall i :: 0 <= i < |ps| ==> sep !in ps[i] by {
        forall i | 0 <= i < |ps| ensures sep !in ps[i] { assert ps[i] == parts[i + 1]; }
      }
      SplitJoin(ps, sep);
      SplitCons(sep, tail, sep);
      var r := [sep] + tail;
      assert Split(r, sep) == [""] + ps;
      HeadTail("", ps);
      SplitPrefix(p0, r, sep);
      assert Join(parts, sep) == p0 + r by {
        assert Join(parts, sep) == p0 + [sep] + tail;
      }
    }
  }

  /** Joining splits at any interior piece boundary. */
  lemma {:induction false} JoinSplitAt(parts: seq<string>, k: nat, sep: char)
    requires 0 < k < |parts|
    ensures Join(parts, sep) == Join(parts[..k], sep) + [sep] + Join(parts[k..], sep)
    decreases k
  {
    if k > 1 {
      JoinSplitAt(parts[1..], k - 1, sep);
      assert parts[1..][..k - 1] == parts[..k][1..];
      assert parts[1..][k - 1..] == parts[k..];
    } else {
      assert parts[..1] == [parts[0]];
      assert parts[1..] == parts[k..];
    }
  }

  /** Joining a tail of the pieces of `s` yields a suffix of `s`. */
  lemma JoinTailIsSuffix(s: string, k: nat, sep: char)
    requires k < |Split(s, sep)|
    ensures IsSuffix(Join(Split(s, sep)[k..], sep), s)
  {
    var parts := Split(s, sep);
    if k > 0 {
      JoinSplitAt(parts, k, sep);
    } else {
      assert parts[k..] == parts;
    }
  }

  /** Index of the first occurrence of `c` in `s`, if any. */
  function IndexOf(s: string, c: char): (r: Option<nat>)
    ensures r.Some? ==> r.value < |s| && s[r.value] == c && c !in s[..r.value]
    ensures r.None? ==> c !in s
  {
    if |s| == 0 then None
    else if s[0] == c then Some(0)
    else
      match IndexOf(s[1..], c)
      case None => None
      case Some(i) =>
        assert s[..i + 1] == [s[0]] + s[1..][..i];
        Some(i + 1)
  }

  /** Index of the last occurrence of `c` in `s`, if any. */
  function LastIndexOf(s: string, c: char): (r: Option<nat>)
    ensures r.Some? ==> r.value < |s| && s[r.value] == c && c !in s[r.value + 1..]
    ensures r.None? ==> c !in s
  {
    if |s| == 0 then None
    else if s[|s| - 1] == c then Some(|s| - 1)
    else
      var r := LastIndexOf(s[..|s| - 1], c);
      if r.Some? then
        assert s[r.value + 1..] == s[..|s| - 1][r.value + 1..] + [s[|s| - 1]];
        r
      else
        assert s == s[..|s| - 1] + [s[|s| - 1]];
        r
  }

  /** The first `c` in `f + [c] + rest` is the one after `f`, when `f` has none. */
  lemma {:induction false} IndexOfAfter(f: string, c: char, rest: string)
    requires c !in f
    ensures IndexOf(f + [c] + rest, c) == Some(|f|)
    decreases |f|
  {
    var s := f + [c] + rest;
    if |f| > 0 {
      assert s[0] == f[0] && f[0] in f;
      assert s[1..] == f[1..] + [c] + rest;
      IndexOfAfter(f[1..], c, rest);
    }
  }

  /** The last `c` in `f + [c] + d` is the one before `d`, when `d` has none. */
  lemma {:induction false} LastIndexOfBefore(f: string, c: char, d: string)
    requires c !in d
    ensures LastIndexOf(f + [c] + d, c) == Some(|f|)
    decreases |d|
  {
    var s := f + [c] + d;
    if |d| > 0 {
      assert s[|s| - 1] == d[|d| - 1] && d[|d| - 1] in d;
      assert s[..|s| - 1] == f + [c] + d[..|d| - 1];
      LastIndexOfBefore(f, c, d[..|d| - 1]);
    }
  }

  predicate IsDigit(c: char) {
    '0' <= c <= '9'
  }

  predicate AllDigits(s: string) {
    forall i :: 0 <= i < |s| ==> IsDigit(s[i])
  }

  /** The text `strconv.Itoa` produces: an optional minus sign and at least one digit. */
  predicate IsDecimal(s: string) {
    if |s| > 0 && s[0] == '-' then |s| > 1 && AllDigits(s[1..])
    else |s| > 0 && AllDigits(s)
  }

  function DigitChar(d: nat): (c: char)
    requires d < 10
    ensures IsDigit(c)
  {
    ('0' as int + d) as char
  }

  function DigitValue(c: char): (d: nat)
    requires IsDigit(c)
    ensures d < 10
  {
    c as int - '0' as int
  }

  /** Decimal digits of a natural number, most significant first, no leading zeros. */
  function NatDecimal(n: nat): (r: string)
    ensures |r| >= 1 && AllDigits(r)
    ensures r[0] == '0' <==> n == 0
    decreases n
  {
    if n < 10 then [DigitChar(n)]
    else
      var r := NatDecimal(n / 10) + [DigitChar(n % 10)];
      assert r[0] == NatDecimal(n / 10)[0];
      r
  }

  /**
   `strconv.Itoa(n)`: a leading minus sign for negative numbers, then the
   digits of |n|. It is the canonical numeral: it reads back as `n`, and a
   leading `0` occurs only in the numeral `0` itself.
   */
  function Decimal(n: int): (r: string)
    ensures IsDecimal(r)
    ensures r[0] == '-' <==> n < 0
    ensures ParseDecimal(r) == n
    ensures (if n < 0 then r[1..] else r)[0] == '0' ==> r == "0"
  {
    if n < 0 then
      var r := "-" + NatDecimal(-n);
      assert r[1..] == NatDecimal(-n);
      ParseNatDecimal(-n);
      r
    else
      ParseNatDecimal(n);
      NatDecimal(n)
  }

  /** The value of a string of decimal digits. */
  function ParseNat(s: string): nat
    requires AllDigits(s)
    decreases |s|
  {
    if |s| == 0 then 0
    else ParseNat(s[..|s| - 1]) * 10 + DigitValue(s[|s| - 1])
  }

  /** The value of a decimal numeral with an optional minus sign. */
  function ParseDecimal(s: string): int
    requires IsDecimal(s)
  {
    if s[0] == '-' then 0 - (ParseNat(s[1..]) as int) else ParseNat(s)
  }

  lemma {:induction false} ParseNatDecimal(n: nat)
    ensures ParseNat(NatDecimal(n)) == n
    decreases n
  {
    if n >= 10 {
      var d := NatDecimal(n / 10);
      var s := d + [DigitChar(n % 10)];
      assert s[..|s| - 1] == d;
      ParseNatDecimal(n / 10);
    }
  }
}
